=== FILE: README.md ===
# RealmApp task lists — a verified model of the screen logic

RealmApp is an iOS to-do app with two table screens. The first lists the task
lists. Each row shows the list's name and a summary: a check mark "✓" when the
list is non-empty and every task is done, otherwise the number of open tasks.
The screen first shows the lists in the store's order. After a change of
the sort control, an edit of a list or the save of a new list, the rows are
re-sorted: by `date` for sort id 0, by name for any other id.
The second screen shows one list's tasks in two sections: section 0 holds the
current (incomplete) tasks and section 1 the completed ones. A swipe action
"Done"/"Undone" flips a task's `isComplete` flag, which moves it to the other
section.

This project models that logic as pure functions over immutable `Task` and
`TaskList` values, and proves what the screens promise:

- `records.dfy`: the entities, and the `index(of:) ?? 0` lookup.
- `decimal.dfy`: Swift's decimal rendering of a count, and its inverse.
- `filters.dfy`: the `isComplete = false` / `isComplete = true` filters and their partition of a list.
- `summary.dfy`: the list summary.
- `ordering.dfy`: the list screen's rows, sort orders, cells and save row.
- `sections.dfy`: the task screen's sections, lookup, titles, done action, edit action and save row.
- `scenarios.dfy`: a concrete scenario ("Groceries").

A Realm object's identity is modelled as an `id` field. Two handles with the same
`id` are the same stored object, and `index(of:)` finds the first row with that
`id`. A write to a task goes through every handle with its `id`. Realm's live `Results` are modelled as values recomputed from the current
tasks, not as notifications. The writes made through `StorageManager` are modelled
only to the extent their call sites show:
- `done(to:is:)` writes the given flag to that one task;
- `edit(to:with:and:)` writes the new name and note to that task.

The saved collections after `save` are parameters.

## Model

| member | source | states |
|---|---|---|
| Records.FirstIndex | RealmApp/ViewControllers/TasksViewController.swift:126 | the result is the first position whose element matches, and it is `None` exactly when no element matches |
| Records.IndexOrZero | RealmApp/ViewControllers/TaskListViewController.swift:151 | when some element matches, the row holds the first match; when none does, the row is 0 |
| Decimal.Render | RealmApp/ViewControllers/TaskListViewController.swift:125 | the count is written as a non-empty string of decimal digits with no leading zero; 0 is written "0" |
| Decimal.ParseRender | RealmApp/ViewControllers/TaskListViewController.swift:125 | reading the rendered digits back gives the count |
| Decimal.RenderInjective | RealmApp/ViewControllers/TaskListViewController.swift:125 | different counts are rendered as different strings |
| Filters.WithState | RealmApp/ViewControllers/TasksViewController.swift:24-25 | a filter keeps no more tasks than the list has |
| Filters.WithStateMembers | RealmApp/ViewControllers/TasksViewController.swift:24-25 | a task is in the filtered result exactly when it is in the list and has the filter's flag |
| Filters.Partition | RealmApp/ViewControllers/TasksViewController.swift:24-25 | the current and completed tasks split the list: the counts sum to the total, the multisets sum to the list's, and every task is in exactly one |
| Filters.NthIndex | RealmApp/ViewControllers/TasksViewController.swift:50-52 | the row-th task with a flag sits at a position with that flag, and exactly `row` tasks with that flag come before it |
| Filters.NthIndexOf | RealmApp/ViewControllers/TasksViewController.swift:63-65 | every task with a flag is shown at exactly one row: the number of such tasks before it |
| Summary.ReduceDoneIsForall | RealmApp/ViewControllers/TaskListViewController.swift:114-120 | the early-false `reduce(true)` equals its seed and "every task is complete" |
| Summary.RenderIsNotMarker | RealmApp/ViewControllers/TaskListViewController.swift:122-125 | no rendered count equals the check mark |
| Summary.SecondText | RealmApp/ViewControllers/TaskListViewController.swift:113-127 | the text is "✓" exactly when the list has a task and all are complete; otherwise it is the decimal rendering of the number of incomplete tasks, which reads back as that number; an empty list shows "0" |
| Summary.OpenCountBounds | RealmApp/ViewControllers/TaskListViewController.swift:114-125 | when a non-empty list shows a number, the number is between 1 and the number of tasks |
| Summary.SummaryOfCompletedList | RealmApp/ViewControllers/TaskListViewController.swift:122-123 | a non-empty list whose tasks are all complete shows "✓" |
| Ordering.StrLeTotal | RealmApp/ViewControllers/TaskListViewController.swift:103 | the name order relates any two names one way or the other |
| Ordering.StrLeTransitive | RealmApp/ViewControllers/TaskListViewController.swift:103 | the name order is transitive |
| Ordering.Insert | RealmApp/ViewControllers/TaskListViewController.swift:101-103 | inserting adds exactly that one list and keeps a sorted sequence sorted |
| Ordering.Sort | RealmApp/ViewControllers/TaskListViewController.swift:101-103 | the result is an ascending permutation of the input |
| Ordering.SortTable | RealmApp/ViewControllers/TaskListViewController.swift:99-105 | the result holds the same lists; sort id 0 gives ascending dates and any other id gives ascending names |
| Ordering.SortOfSorted | RealmApp/ViewControllers/TaskListViewController.swift:99-105 | a sequence already in order is left unchanged |
| Ordering.SortTableIdempotent | RealmApp/ViewControllers/TaskListViewController.swift:92-97 | sorting again with the same sort id changes nothing |
| Ordering.SortKeepsRows | RealmApp/ViewControllers/TaskListViewController.swift:31-33 | the row count is the number of lists, and re-sorting keeps it |
| Ordering.SortTableMembers | RealmApp/ViewControllers/TaskListViewController.swift:99-105 | sorting keeps the length and exactly the same members |
| Ordering.CellForRow | RealmApp/ViewControllers/TaskListViewController.swift:36-49 | a row shows its list's name and the list's summary, and the summary is highlighted exactly when the list is non-empty and finished |
| Ordering.SavedListRow | RealmApp/ViewControllers/TaskListViewController.swift:147-153 | after a save and a re-sort, when the store holds a list with the saved list's identity, the insert row is the first sorted row with that identity; when it holds none, the row is 0 |
| Sections.RowsAddUp | RealmApp/ViewControllers/TasksViewController.swift:36-42 | there are two sections; section 0 plus any other section have as many rows as the list has tasks |
| Sections.SourceIndex | RealmApp/ViewControllers/TasksViewController.swift:73-74 | the swiped row refers to a list position whose flag is `section != 0`, and exactly `row` earlier tasks share that flag |
| Sections.TaskAt | RealmApp/ViewControllers/TasksViewController.swift:50-52 | the task shown at (section, row) is that list position, and its `isComplete` is `section != 0` |
| Sections.OtherSection | RealmApp/ViewControllers/TasksViewController.swift:84 | the other reloaded section is one of the two sections and holds the opposite flag from the swiped one |
| Sections.Toggle | RealmApp/ViewControllers/TasksViewController.swift:85 | the flag is negated and every other field is unchanged |
| Sections.SetComplete | RealmApp/ViewControllers/TasksViewController.swift:85 | every handle to the written task reads the new flag; ids, names, notes and all other tasks are unchanged |
| Sections.SetCompleteAt | RealmApp/ViewControllers/TasksViewController.swift:85 | in a list that holds each task once, the write changes exactly the swiped position |
| Sections.DoneAction | RealmApp/ViewControllers/TasksViewController.swift:83-88 | the swiped task is written `!isComplete` through every handle to it; no handle stays in its section and the task shows in the other one; no other task changes; for a list holding each task once, that section loses one row and the other gains one |
| Sections.FlippedRow | RealmApp/ViewControllers/TasksViewController.swift:84-86 | after the done action, the flipped task is the other section's row that counts the earlier tasks with its new flag; for a list holding each task once, that row is `i - row`, where `i` is its list position |
| Sections.SetCompleteRestores | RealmApp/ViewControllers/TasksViewController.swift:85 | writing the opposite flag and then the original flag to a task restores the list |
| Sections.DoneTwiceRestores | RealmApp/ViewControllers/TasksViewController.swift:84-85 | the flipped task appears in the other section, and the done action there restores the original list |
| Sections.HeaderMatchesRows | RealmApp/ViewControllers/TasksViewController.swift:44-46 | "CURRENT TASKS" heads exactly the incomplete tasks and "COMPLETED TASKS" exactly the complete ones |
| Sections.DoneTitleMatchesAction | RealmApp/ViewControllers/TasksViewController.swift:81-85 | the button reads "Done" exactly when pressing it marks the task complete, and "Undone" exactly when it marks it incomplete |
| Sections.EditTask | RealmApp/ViewControllers/TasksViewController.swift:130-135 | with no task nothing changes; otherwise the task reads back with the new name and note and keeps its flag, and no other task changes |
| Sections.EditKeepsRow | RealmApp/ViewControllers/TasksViewController.swift:130-133 | editing the swiped task keeps each section's row count, so the reloaded swipe row shows the edited task |
| Sections.SavedTaskRow | RealmApp/ViewControllers/TasksViewController.swift:123-128 | when the saved task is among the current tasks, the insert row of section 0 shows it; otherwise the row is 0 |
| Sections.SavedTaskAtEnd | RealmApp/ViewControllers/TasksViewController.swift:125-126 | if the store appends a fresh task, the insert row is the last row of section 0 |
| Scenarios.EmptyListShowsZero | RealmApp/ViewControllers/TaskListViewController.swift:122-125 | a list with no tasks shows "0", not "✓" |
| Scenarios.SharedTaskMovesWhole | RealmApp/ViewControllers/TasksViewController.swift:85 | when a list holds one stored task twice, the done action flips both handles and section 0 is left empty |
| Scenarios.GroceriesScenario | RealmApp/ViewControllers/TaskListViewController.swift:113-127 | two open tasks show "2"; after one is marked done the list shows "1"; after both, it shows "✓" |

## Left out

- UIKit wiring is left out: cell dequeuing, colours, building the swipe actions, `reloadRows`/`insertRows`/`deleteRows`/`reloadSections`, segues and alerts. These are UI effects. Only the index and title choices they use are modelled.
- `StorageManager` and `DataManager` are not part of this model. Their write transactions, list `done` and `edit`, list delete with its cascade, and task delete are not modelled. `done(to:is:)` and `edit(to:with:and:)` are modelled only as the writes their call sites ask for.
- The task delete action (TasksViewController.swift:67-70) is not modelled. It passes a row index relative to its section, and the code that receives it is not visible.
- The live auto-updating of Realm `Results` and its notifications are not modelled. Filters and sorts are recomputed from the current values.
- `createTempData` is left out. It seeds data asynchronously through a completion callback.
- Neither controller validates names. What the alert controller they call does with empty input is not part of this model.
- Ordering.StrLe: compares names character by character in code-point order. Realm's own string collation is not modelled.
- Ordering.Sort: its contract does not fix the order of lists that share a key. The definition keeps them in input order. The source does not say how Realm orders such lists.
- A list's `date` is modelled as an integer timestamp. Reading it as the creation time is an assumption, because the `TaskList` class is not part of this model.
- Sections.DoneAction: the one-row move between sections is promised only for lists that hold each task once. When a list holds one stored task twice, every handle moves, and the general clauses say so.
- Sections.DoneTwiceRestores: requires that handles with the same `id` read the same values (`ConsistentIds`). That is what makes `id` an object identity, and the done action preserves it.
- Sections.SavedTaskAtEnd: assumes that the store appends a saved task to the end of its list. That is this lemma's hypothesis; the store code is not visible.
- Sections.NewTask: assumes `isComplete` defaults to false, because the `Task` class is not part of this model.

=== FILE: decimal.dfy ===
/** Decimal rendering of a count, as Swift's string interpolation `"\(n)"`
    writes a non-negative `Int`, and the reading that undoes it. */
module Decimal {

  predicate IsDigit(c: char) {
    '0' <= c <= '9'
  }

  predicate IsDigits(s: string) {
    forall i :: 0 <= i < |s| ==> IsDigit(s[i])
  }

  function DigitChar(d: nat): (c: char)
    requires d < 10
    ensures IsDigit(c)
    ensures c as int - '0' as int == d
  {
    ('0' as int + d) as char
  }

  /** The shortest decimal numeral for `n`: digits only, no leading zero. */
  function Render(n: nat): (s: string)
    ensures |s| > 0 && IsDigits(s)
    ensures s[0] == '0' <==> n == 0
    ensures n == 0 ==> s == "0"
    decreases n
  {
    if n < 10 then [DigitChar(n)]
    else Render(n / 10) + [DigitChar(n % 10)]
  }

  /** The value of a string of digits, most significant first. */
  function Parse(s: string): nat
    requires IsDigits(s)
  {
    if |s| == 0 then 0
    else 10 * Parse(s[..|s| - 1]) + (s[|s| - 1] as int - '0' as int)
  }

  /** Reading the rendering back gives the number: no information is lost. */
  lemma {:induction false} ParseRender(n: nat)
    ensures Parse(Render(n)) == n
    decreases n
  {
    var s := Render(n);
    if n >= 10 {
      ParseRender(n / 10);
      assert s[..|s| - 1] == Render(n / 10);
    }
  }

  /** Distinct counts render as distinct strings. */
  lemma RenderInjective(m: nat, n: nat)
    ensures Render(m) == Render(n) ==> m == n
  {
    ParseRender(m);
    ParseRender(n);
  }
}

=== FILE: filters.dfy ===
/** The two live filters a list's tasks are shown through:
    `filter("isComplete = false")` (current tasks) and
    `filter("isComplete = true")` (completed tasks), recomputed as pure
    functions of the list's tasks. */
module Filters {
  import opened Records

  /** The tasks whose flag is `done`, in the list's order. */
  function WithState(tasks: seq<Task>, done: bool): (r: seq<Task>)
    ensures |r| <= |tasks|
  {
    if |tasks| == 0 then []
    else if tasks[0].isComplete == done then [tasks[0]] + WithState(tasks[1..], done)
    else WithState(tasks[1..], done)
  }

  /** A task is kept exactly when it is in the list and has flag `done`. */
  lemma {:induction false} WithStateMembers(tasks: seq<Task>, done: bool)
    ensures forall t :: t in WithState(tasks, done) <==> t in tasks && t.isComplete == done
    decreases |tasks|
  {
    if |tasks| > 0 {
      WithStateMembers(tasks[1..], done);
      assert tasks == [tasks[0]] + tasks[1..];
    }
  }

  function CurrentTasks(tasks: seq<Task>): seq<Task> {
    WithState(tasks, false)
  }

  function CompletedTasks(tasks: seq<Task>): seq<Task> {
    WithState(tasks, true)
  }

  /** Filtering distributes over concatenation. */
  lemma {:induction false} WithStateAppend(a: seq<Task>, b: seq<Task>, done: bool)
    ensures WithState(a + b, done) == WithState(a, done) + WithState(b, done)
    decreases |a|
  {
    if |a| > 0 {
      assert (a + b)[0] == a[0];
      assert (a + b)[1..] == a[1..] + b;
      WithStateAppend(a[1..], b, done);
    } else {
      assert a + b == b;
    }
  }

  /** The current and completed tasks partition the list's tasks: the two
      counts add up to the total, together they hold every task exactly as
      often as the list does, and no task is in both. */
  lemma {:induction false} Partition(tasks: seq<Task>)
    ensures |CurrentTasks(tasks)| + |CompletedTasks(tasks)| == |tasks|
    ensures multiset(CurrentTasks(tasks)) + multiset(CompletedTasks(tasks)) == multiset(tasks)
    ensures forall t :: t in tasks ==> (t in CurrentTasks(tasks) <==> t !in CompletedTasks(tasks))
    decreases |tasks|
  {
    WithStateMembers(tasks, false);
    WithStateMembers(tasks, true);
    if |tasks| > 0 {
      Partition(tasks[1..]);
      assert tasks == [tasks[0]] + tasks[1..];
    }
  }

  /** Only the flags decide how many tasks each filter keeps. */
  lemma {:induction false} SameFlagsSameCount(a: seq<Task>, b: seq<Task>, done: bool)
    requires |a| == |b|
    requires forall j :: 0 <= j < |a| ==> a[j].isComplete == b[j].isComplete
    ensures |WithState(a, done)| == |WithState(b, done)|
    decreases |a|
  {
    if |a| > 0 {
      SameFlagsSameCount(a[1..], b[1..], done);
    }
  }

  /** Replacing one task changes each filter's count only by what the old
      and the new task contribute. */
  lemma WithStateUpdate(tasks: seq<Task>, i: nat, t: Task, done: bool)
    requires i < |tasks|
    ensures |WithState(tasks[i := t], done)|
            == |WithState(tasks, done)|
               - (if tasks[i].isComplete == done then 1 else 0)
               + (if t.isComplete == done then 1 else 0)
  {
    var a, b := tasks[..i], tasks[i + 1..];
    assert tasks == a + [tasks[i]] + b;
    assert tasks[i := t] == a + [t] + b;
    WithStateAppend(a + [tasks[i]], b, done);
    WithStateAppend(a, [tasks[i]], done);
    WithStateAppend(a + [t], b, done);
    WithStateAppend(a, [t], done);
  }

  /** The position in `tasks` of the `row`-th task whose flag is `done`. */
  function NthIndex(tasks: seq<Task>, done: bool, row: nat): (i: nat)
    requires row < |WithState(tasks, done)|
    ensures i < |tasks| && tasks[i].isComplete == done
    ensures |WithState(tasks[..i], done)| == row
    ensures WithState(tasks, done)[row] == tasks[i]
    decreases |tasks|
  {
    if tasks[0].isComplete == done && row == 0 then
      assert tasks[..0] == [];
      0
    else
      var k := NthIndex(tasks[1..], done, if tasks[0].isComplete == done then row - 1 else row);
      assert tasks[..k + 1] == [tasks[0]] + tasks[1..][..k];
      WithStateAppend([tasks[0]], tasks[1..][..k], done);
      k + 1
  }

  /** A prefix that reaches past a task with flag `done` keeps more such
      tasks than the prefix before it. */
  lemma PrefixCountGrows(tasks: seq<Task>, done: bool, i: nat, k: nat)
    requires i < k <= |tasks| && tasks[i].isComplete == done
    ensures |WithState(tasks[..i], done)| < |WithState(tasks[..k], done)|
  {
    var mid := tasks[i..k];
    assert tasks[..k] == tasks[..i] + mid;
    WithStateAppend(tasks[..i], mid, done);
    assert mid[0] == tasks[i];
  }

  /** Each task with flag `done` is the `row`-th such task for exactly the row
      that counts the such tasks before it. */
  lemma NthIndexOf(tasks: seq<Task>, done: bool, i: nat)
    requires i < |tasks| && tasks[i].isComplete == done
    ensures |WithState(tasks[..i], done)| < |WithState(tasks, done)|
    ensures NthIndex(tasks, done, |WithState(tasks[..i], done)|) == i
  {
    var row := |WithState(tasks[..i], done)|;
    PrefixCountGrows(tasks, done, i, |tasks|);
    assert tasks[..|tasks|] == tasks;
    var k := NthIndex(tasks, done, row);
    if k < i {
      PrefixCountGrows(tasks, done, k, i);
    } else if k > i {
      PrefixCountGrows(tasks, done, i, k);
    }
  }

  /** Only the flags decide which position the `row`-th task has. */
  lemma {:induction false} NthIndexSameFlags(a: seq<Task>, b: seq<Task>, done: bool, row: nat)
    requires |a| == |b|
    requires forall j :: 0 <= j < |a| ==> a[j].isComplete == b[j].isComplete
    requires row < |WithState(a, done)|
    ensures row < |WithState(b, done)|
    ensures NthIndex(a, done, row) == NthIndex(b, done, row)
    decreases |a|
  {
    SameFlagsSameCount(a, b, done);
    assert a[0].isComplete == b[0].isComplete;
    if !(a[0].isComplete == done && row == 0) {
      var rowTail := if a[0].isComplete == done then row - 1 else row;
      var ta, tb := a[1..], b[1..];
      assert WithState(a, done) == (if a[0].isComplete == done then [a[0]] else []) + WithState(ta, done);
      forall j | 0 <= j < |ta| ensures ta[j].isComplete == tb[j].isComplete {
        assert ta[j] == a[j + 1] && tb[j] == b[j + 1];
      }
      NthIndexSameFlags(ta, tb, done, rowTail);
      assert NthIndex(a, done, row) == NthIndex(ta, done, rowTail) + 1;
      assert NthIndex(b, done, row) == NthIndex(tb, done, rowTail) + 1;
    }
  }
}

=== FILE: ordering.dfy ===
/** The screen of task lists: its single section with one row per list, the
    two sort orders chosen by the segmented control (`sortTable`), the row
    cell, and the row a newly saved list is inserted at. */
module Ordering {
  import opened Records
  import Summary

  /** The key path a sort id selects. */
  datatype SortKey = ByDate | ByName

  /** Sort id 0 sorts by `date`; every other id sorts by `name`. */
  function KeyFor(sortId: int): (k: SortKey)
    ensures k == ByDate <==> sortId == 0
  {
    if sortId == 0 then ByDate else ByName
  }

  /** Lexicographic order on strings, character by character; a proper
      prefix comes first. */
  predicate StrLe(a: string, b: string)
    decreases |a|
  {
    if |a| == 0 then true
    else if |b| == 0 then false
    else if a[0] != b[0] then a[0] < b[0]
    else StrLe(a[1..], b[1..])
  }

  lemma {:induction false} StrLeTotal(a: string, b: string)
    ensures StrLe(a, b) || StrLe(b, a)
    decreases |a|
  {
    if |a| > 0 && |b| > 0 && a[0] == b[0] {
      StrLeTotal(a[1..], b[1..]);
    }
  }

  lemma {:induction false} StrLeTransitive(a: string, b: string, c: string)
    requires StrLe(a, b) && StrLe(b, c)
    ensures StrLe(a, c)
    decreases |a|
  {
    if |a| > 0 && |b| > 0 && |c| > 0 && a[0] == b[0] && b[0] == c[0] {
      StrLeTransitive(a[1..], b[1..], c[1..]);
    }
  }

  /** Ascending order of two lists under a key (ties allowed). */
  predicate KeyLe(a: TaskList, b: TaskList, key: SortKey) {
    match key
    case ByDate => a.date <= b.date
    case ByName => StrLe(a.name, b.name)
  }

  lemma KeyLeTotal(a: TaskList, b: TaskList, key: SortKey)
    ensures KeyLe(a, b, key) || KeyLe(b, a, key)
  {
    if key == ByName { StrLeTotal(a.name, b.name); }
  }

  lemma KeyLeTransitive(a: TaskList, b: TaskList, c: TaskList, key: SortKey)
    requires KeyLe(a, b, key) && KeyLe(b, c, key)
    ensures KeyLe(a, c, key)
  {
    if key == ByName { StrLeTransitive(a.name, b.name, c.name); }
  }

  /** Every earlier row is at most every later row under `key`. */
  ghost predicate Sorted(s: seq<TaskList>, key: SortKey) {
    forall i, j :: 0 <= i < j < |s| ==> KeyLe(s[i], s[j], key)
  }

  lemma SortedTail(s: seq<TaskList>, key: SortKey)
    requires |s| > 0 && Sorted(s, key)
    ensures Sorted(s[1..], key)
  {
  }

  /** A sorted sequence stays sorted under a new first element that is at
      most each of its elements. */
  lemma PrependSorted(y: TaskList, s: seq<TaskList>, key: SortKey)
    requires Sorted(s, key)
    requires forall z :: z in s ==> KeyLe(y, z, key)
    ensures Sorted([y] + s, key)
  {
  }

  /** Places `x` before the first element it does not exceed. */
  function Insert(x: TaskList, s: seq<TaskList>, key: SortKey): (r: seq<TaskList>)
    ensures multiset(r) == multiset(s) + multiset{x}
    ensures Sorted(s, key) ==> Sorted(r, key)
    decreases |s|
  {
    if |s| == 0 then [x]
    else if KeyLe(x, s[0], key) then
      assert Sorted(s, key) ==> Sorted([x] + s, key) by {
        if Sorted(s, key) {
          forall z | z in s ensures KeyLe(x, z, key) {
            var j :| 0 <= j < |s| && s[j] == z;
            if j > 0 { KeyLeTransitive(x, s[0], z, key); }
          }
          PrependSorted(x, s, key);
        }
      }
      [x] + s
    else
      var rest := Insert(x, s[1..], key);
      assert s == [s[0]] + s[1..];
      assert Sorted(s, key) ==> Sorted([s[0]] + rest, key) by {
        if Sorted(s, key) {
          SortedTail(s, key);
          KeyLeTotal(x, s[0], key);
          forall y | y in rest ensures KeyLe(s[0], y, key) {
            assert y in multiset(rest);
            if y != x {
              assert y in multiset(s[1..]);
              var j :| 0 <= j < |s[1..]| && s[1..][j] == y;
              assert s[j + 1] == y;
            }
          }
          PrependSorted(s[0], rest, key);
        }
      }
      [s[0]] + rest
  }

  /** Insertion sort: an ascending permutation of `s`. Each list goes in
      before the first list it does not exceed, so by construction lists
      with equal keys keep their input order; the contract does not state
      that. */
  function Sort(s: seq<TaskList>, key: SortKey): (r: seq<TaskList>)
    ensures multiset(r) == multiset(s)
    ensures |r| == |s|
    ensures Sorted(r, key)
    decreases |s|
  {
    if |s| == 0 then []
    else
      assert s == [s[0]] + s[1..];
      var r := Insert(s[0], Sort(s[1..], key), key);
      assert |r| == |multiset(r)|;
      r
  }

  /** `sortTable`: the lists re-sorted by the key the sort id selects; the
      result holds exactly the same lists, ascending in that key. */
  function SortTable(lists: seq<TaskList>, sortId: int): (r: seq<TaskList>)
    ensures multiset(r) == multiset(lists)
    ensures sortId == 0 ==> Sorted(r, ByDate)
    ensures sortId != 0 ==> Sorted(r, ByName)
  {
    Sort(lists, KeyFor(sortId))
  }

  /** A sequence already in order is left as it is. */
  lemma {:induction false} SortOfSorted(s: seq<TaskList>, key: SortKey)
    requires Sorted(s, key)
    ensures Sort(s, key) == s
    decreases |s|
  {
    if |s| > 0 {
      SortedTail(s, key);
      SortOfSorted(s[1..], key);
      if |s| > 1 {
        assert KeyLe(s[0], s[1..][0], key);
      }
      assert s == [s[0]] + s[1..];
    }
  }

  /** Sorting twice by the same sort id is sorting once. */
  lemma SortTableIdempotent(lists: seq<TaskList>, sortId: int)
    ensures SortTable(SortTable(lists, sortId), sortId) == SortTable(lists, sortId)
  {
    SortOfSorted(SortTable(lists, sortId), KeyFor(sortId));
  }

  /** `numberOfRowsInSection`: one row per task list. */
  function NumberOfRows(lists: seq<TaskList>): nat {
    |lists|
  }

  /** Re-sorting neither adds nor drops rows. */
  lemma SortKeepsRows(lists: seq<TaskList>, sortId: int)
    ensures NumberOfRows(SortTable(lists, sortId)) == NumberOfRows(lists)
  {
  }

  /** What the row of a list shows: its name, its summary, and whether the
      summary is highlighted. */
  datatype ListCell = ListCell(text: string, secondaryText: string, highlighted: bool)

  /** `cellForRowAt` on the screen of task lists. */
  function CellForRow(lists: seq<TaskList>, row: nat): (c: ListCell)
    requires row < NumberOfRows(lists)
    ensures c.text == lists[row].name
    ensures c.secondaryText == Summary.SecondText(lists[row])
    ensures c.highlighted <==> |lists[row].tasks| > 0 && Summary.AllComplete(lists[row].tasks)
  {
    var text := Summary.SecondText(lists[row]);
    ListCell(lists[row].name, text, text == Summary.DoneMarker)
  }

  /** Sorting keeps exactly the lists it was given, and as many rows. */
  lemma SortTableMembers(lists: seq<TaskList>, sortId: int)
    ensures |SortTable(lists, sortId)| == |lists|
    ensures forall l :: l in SortTable(lists, sortId) <==> l in lists
  {
    var rows := SortTable(lists, sortId);
    assert |rows| == |multiset(rows)|;
    forall l ensures l in rows <==> l in lists {
      assert l in rows <==> l in multiset(rows);
      assert l in lists <==> l in multiset(lists);
    }
  }

  /** `save`: after the store has saved `list` (giving `stored`), the table is
      re-sorted and the new row goes where the list now is, or to row 0 when
      the sorted result does not hold it. */
  function SavedListRow(stored: seq<TaskList>, list: TaskList, sortId: int): (row: nat)
    ensures (exists l :: l in stored && l.id == list.id) ==>
              && row < |stored| && SortTable(stored, sortId)[row].id == list.id
              && forall j :: 0 <= j < row ==> SortTable(stored, sortId)[j].id != list.id
    ensures (forall l :: l in stored ==> l.id != list.id) ==> row == 0
  {
    var rows := SortTable(stored, sortId);
    SortTableMembers(stored, sortId);
    IndexOrZero(rows, (l: TaskList) => l.id == list.id)
  }
}

=== FILE: records.dfy ===
/** The stored entities of the app and the index lookup that the table views
    use on their (live) query results. */
module Records {

  /** An optional value, as Swift's `Optional` (`nil` is `None`). */
  datatype Option<+T> = None | Some(value: T) {

    /** The wrapped value, or `default` for `None` (Swift's `??`). */
    function GetOr(default: T): T {
      match this
      case Some(v) => v
      case None => default
    }
  }

  /** A task of a list. `id` stands for the identity of the stored object:
      two handles to the same stored task have the same `id`. */
  datatype Task = Task(id: nat, name: string, note: string, isComplete: bool)

  /** A named list of tasks. `date` is the key the list is sorted by for
      sort id 0; the `TaskList` class is not part of this model, so reading
      it as the creation time is an assumption (any total order on instants
      will do, so it is an integer here). */
  datatype TaskList = TaskList(id: nat, name: string, date: int, tasks: seq<Task>)

  /** Each stored task appears at most once. */
  predicate DistinctIds(tasks: seq<Task>) {
    forall j, k :: 0 <= j < k < |tasks| ==> tasks[j].id != tasks[k].id
  }

  /** Handles with the same identity read the same stored values: the
      invariant that makes `id` an object identity. */
  predicate ConsistentIds(tasks: seq<Task>) {
    forall j, k :: 0 <= j < |tasks| && 0 <= k < |tasks| && tasks[j].id == tasks[k].id ==> tasks[j] == tasks[k]
  }

  /** The first position of `s` whose element satisfies `p`, or `None` when no
      element does; `index(of:)` on a query result is this with `p` comparing
      object identity. */
  function FirstIndex<T>(s: seq<T>, p: T -> bool): (r: Option<nat>)
    ensures r.Some? ==> r.value < |s| && p(s[r.value])
    ensures r.Some? ==> forall j :: 0 <= j < r.value ==> !p(s[j])
    ensures r.None? <==> forall j :: 0 <= j < |s| ==> !p(s[j])
  {
    if |s| == 0 then None
    else if p(s[0]) then Some(0)
    else match FirstIndex(s[1..], p)
      case None => None
      case Some(k) => Some(k + 1)
  }

  /** The row a freshly saved object is inserted at: its index in the
      result, or row 0 when the result does not hold it (`index(of:) ?? 0`). */
  function IndexOrZero<T>(s: seq<T>, p: T -> bool): (row: nat)
    ensures (exists j :: 0 <= j < |s| && p(s[j])) ==>
              row < |s| && p(s[row]) && forall j :: 0 <= j < row ==> !p(s[j])
    ensures (forall j :: 0 <= j < |s| ==> !p(s[j])) ==> row == 0
  {
    FirstIndex(s, p).GetOr(0)
  }
}

=== FILE: scenarios.dfy ===
/** A concrete scenario on the two screens, with a small list. */
module Scenarios {
  import opened Records
  import opened Filters
  import Decimal
  import Summary
  import Sections

  const Milk := Sections.NewTask(1, "Milk", "")
  const Bread := Sections.NewTask(2, "Bread", "")

  function Groceries(tasks: seq<Task>): TaskList {
    TaskList(7, "Groceries", 0, tasks)
  }

  /** A new list shows "0", not the check mark. */
  lemma EmptyListShowsZero()
    ensures Summary.SecondText(Groceries([])) == "0"
  {
  }

  /** Two open tasks show "2"; marking "Milk" done (row 0 of section 0)
      shows "1"; marking "Bread" done, now row 0 of section 0, shows the
      check mark. */
  lemma GroceriesScenario()
    ensures Summary.SecondText(Groceries([Milk, Bread])) == "2"
    ensures Sections.RowsInSection([Milk, Bread], 0) == 2
    ensures var once := Sections.DoneAction([Milk, Bread], 0, 0);
            && Summary.SecondText(Groceries(once)) == "1"
            && Sections.RowsInSection(once, 0) == 1
            && Summary.SecondText(Groceries(Sections.DoneAction(once, 0, 0))) == Summary.DoneMarker
  {
    var tasks := [Milk, Bread];
    assert tasks[1..] == [Bread] && [Bread][1..] == [];
    assert !Milk.isComplete && !Bread.isComplete;
    assert WithState([Bread], false) == [Bread] + WithState([], false);
    assert WithState(tasks, false) == [Milk] + WithState([Bread], false);
    Decimal.ParseRender(2);
    var once := Sections.DoneAction(tasks, 0, 0);
    assert once == [Sections.Toggle(Milk), Bread];
    assert CurrentTasks(once) == [Bread];
    var twice := Sections.DoneAction(once, 0, 0);
    assert twice == [Sections.Toggle(Milk), Sections.Toggle(Bread)];
  }

  /** A list that holds one stored task twice: the done action flips both
      handles, so section 0 is left empty. */
  lemma SharedTaskMovesWhole()
    ensures var once := Sections.DoneAction([Milk, Milk], 0, 0);
            && once[0].isComplete && once[1].isComplete
            && Sections.RowsInSection(once, 0) == 0
  {
    var once := Sections.DoneAction([Milk, Milk], 0, 0);
    assert once == [Sections.Toggle(Milk), Sections.Toggle(Milk)];
    var done := Sections.Toggle(Milk);
    assert done.isComplete;
    assert once[1..] == [done] && [done][1..] == [];
    assert WithState([done], false) == WithState([], false) == [];
    assert WithState(once, false) == WithState([done], false);
  }
}

=== FILE: sections.dfy ===
/** The screen of one list's tasks: two sections, section 0 showing the
    current (incomplete) tasks and every other section the completed ones,
    with the row lookup, the header and done-button titles, the done action
    that moves a task to the other section, the edit action and the row a
    newly saved task is inserted at. */
module Sections {
  import opened Records
  import opened Filters

  /** `numberOfSections`: always two. */
  const NumberOfSections: nat := 2

  /** The flag shared by every task of `section`. */
  function SectionState(section: int): bool {
    section != 0
  }

  /** The query result a section is drawn from. */
  function SectionTasks(tasks: seq<Task>, section: int): seq<Task> {
    if section == 0 then CurrentTasks(tasks) else CompletedTasks(tasks)
  }

  /** `numberOfRowsInSection`. */
  function RowsInSection(tasks: seq<Task>, section: int): nat {
    |SectionTasks(tasks, section)|
  }

  /** The rows of section 0 and of any other section together show every
      task once. */
  lemma RowsAddUp(tasks: seq<Task>, section: int)
    requires section != 0
    ensures RowsInSection(tasks, 0) + RowsInSection(tasks, section) == |tasks|
    ensures NumberOfSections == 2
  {
    Partition(tasks);
  }

  /** The position in the list of the task shown at (`section`, `row`). */
  function SourceIndex(tasks: seq<Task>, section: int, row: nat): (i: nat)
    requires row < RowsInSection(tasks, section)
    ensures i < |tasks| && tasks[i].isComplete == SectionState(section)
    ensures |WithState(tasks[..i], SectionState(section))| == row
  {
    NthIndex(tasks, SectionState(section), row)
  }

  /** The task `cellForRowAt` and the swipe actions use for (`section`, `row`):
      the `row`-th task of the list whose flag is `section != 0`. */
  function TaskAt(tasks: seq<Task>, section: int, row: nat): (t: Task)
    requires row < RowsInSection(tasks, section)
    ensures t == tasks[SourceIndex(tasks, section, row)]
    ensures t.isComplete == (section != 0)
  {
    SectionTasks(tasks, section)[row]
  }

  function HeaderTitle(section: int): string {
    if section == 0 then "CURRENT TASKS" else "COMPLETED TASKS"
  }

  function DoneButtonTitle(section: int): string {
    if section == 0 then "Done" else "Undone"
  }

  /** `anotherSectionIndex`: the section reloaded beside the swiped one. */
  function OtherSection(section: int): (other: int)
    ensures 0 <= other < NumberOfSections
    ensures SectionState(other) == !SectionState(section)
  {
    if section == 0 then 1 else 0
  }

  /** The done action's write: `isComplete := !isComplete`, nothing else. */
  function Toggle(t: Task): (r: Task)
    ensures r.isComplete != t.isComplete
    ensures r.(isComplete := t.isComplete) == t
  {
    t.(isComplete := !t.isComplete)
  }

  /** The store's write of the flag to one stored task: every handle to it
      reads `value` afterwards, and nothing else changes. */
  function SetComplete(tasks: seq<Task>, id: nat, value: bool): (r: seq<Task>)
    ensures |r| == |tasks|
    ensures forall j :: 0 <= j < |tasks| ==>
              r[j].id == tasks[j].id && r[j].name == tasks[j].name && r[j].note == tasks[j].note
    ensures forall j :: 0 <= j < |tasks| && tasks[j].id == id ==> r[j].isComplete == value
    ensures forall j :: 0 <= j < |tasks| && tasks[j].id != id ==> r[j] == tasks[j]
  {
    seq(|tasks|, j requires 0 <= j < |tasks| =>
      if tasks[j].id == id then tasks[j].(isComplete := value) else tasks[j])
  }

  /** The write keeps handles consistent and keeps the list free of
      repeated tasks. */
  lemma SetCompleteKeepsIds(tasks: seq<Task>, id: nat, value: bool)
    ensures ConsistentIds(tasks) ==> ConsistentIds(SetComplete(tasks, id, value))
    ensures DistinctIds(tasks) ==> DistinctIds(SetComplete(tasks, id, value))
  {
  }

  /** In a list that holds each task once, the write touches one position. */
  lemma SetCompleteAt(tasks: seq<Task>, i: nat, value: bool)
    requires DistinctIds(tasks) && i < |tasks|
    ensures SetComplete(tasks, tasks[i].id, value) == tasks[i := tasks[i].(isComplete := value)]
  {
  }

  /** The done swipe action on (`section`, `row`): the shown task is written
      `isComplete := !isComplete`, through every handle to it, which takes it
      out of its section and into the other one; no other task changes. */
  function DoneAction(tasks: seq<Task>, section: int, row: nat): (r: seq<Task>)
    requires row < RowsInSection(tasks, section)
    ensures |r| == |tasks|
    ensures forall j :: 0 <= j < |tasks| ==>
              r[j].id == tasks[j].id && r[j].name == tasks[j].name && r[j].note == tasks[j].note
    ensures forall j :: 0 <= j < |tasks| && tasks[j].id == TaskAt(tasks, section, row).id ==>
              r[j].isComplete == !SectionState(section)
    ensures forall j :: 0 <= j < |tasks| && tasks[j].id != TaskAt(tasks, section, row).id ==> r[j] == tasks[j]
    ensures r[SourceIndex(tasks, section, row)] == Toggle(TaskAt(tasks, section, row))
    ensures Toggle(TaskAt(tasks, section, row)) in SectionTasks(r, OtherSection(section))
    ensures forall t :: t in SectionTasks(r, section) ==> t.id != TaskAt(tasks, section, row).id
    ensures ConsistentIds(tasks) ==> ConsistentIds(r)
    ensures DistinctIds(tasks) ==> DistinctIds(r)
    ensures DistinctIds(tasks) ==>
              && RowsInSection(r, section) + 1 == RowsInSection(tasks, section)
              && RowsInSection(r, OtherSection(section)) == RowsInSection(tasks, OtherSection(section)) + 1
  {
    var t := TaskAt(tasks, section, row);
    var i := SourceIndex(tasks, section, row);
    var d := SectionState(section);
    var r := SetComplete(tasks, t.id, !t.isComplete);
    WithStateMembers(r, d);
    WithStateMembers(r, !d);
    SetCompleteKeepsIds(tasks, t.id, !t.isComplete);
    assert DistinctIds(tasks) ==> |WithState(r, d)| + 1 == |WithState(tasks, d)|
                                  && |WithState(r, !d)| == |WithState(tasks, !d)| + 1 by {
      if DistinctIds(tasks) {
        SetCompleteAt(tasks, i, !d);
        WithStateUpdate(tasks, i, Toggle(tasks[i]), d);
        WithStateUpdate(tasks, i, Toggle(tasks[i]), !d);
      }
    }
    r
  }

  /** After the done action the flipped task is the row of the other section
      that counts the other-flag tasks before it; when the list holds each
      task once, that row is `i - row`. */
  lemma FlippedRow(tasks: seq<Task>, section: int, row: nat)
    requires row < RowsInSection(tasks, section)
    ensures var i := SourceIndex(tasks, section, row);
            var r := DoneAction(tasks, section, row);
            var back := |WithState(r[..i], !SectionState(section))|;
            && back < RowsInSection(r, OtherSection(section))
            && SourceIndex(r, OtherSection(section), back) == i
            && (DistinctIds(tasks) ==> back == i - row)
  {
    var i := SourceIndex(tasks, section, row);
    var r := DoneAction(tasks, section, row);
    var d := SectionState(section);
    NthIndexOf(r, !d, i);
    if DistinctIds(tasks) {
      var prefix := tasks[..i];
      assert r[..i] == prefix by {
        forall j | 0 <= j < i ensures r[j] == tasks[j] {
          assert tasks[j].id != tasks[i].id;
        }
      }
      Partition(prefix);
      assert |WithState(prefix, !d)| == i - row;
    }
  }

  /** Writing the opposite flag and then the original one to a stored task
      whose handles all read `value` restores the list. */
  lemma SetCompleteRestores(tasks: seq<Task>, id: nat, value: bool)
    requires forall j :: 0 <= j < |tasks| && tasks[j].id == id ==> tasks[j].isComplete == value
    ensures SetComplete(SetComplete(tasks, id, !value), id, value) == tasks
  {
  }

  /** The flipped task is shown in the other section, and the done action
      there puts the list back as it was. */
  lemma DoneTwiceRestores(tasks: seq<Task>, section: int, row: nat)
    requires row < RowsInSection(tasks, section)
    requires ConsistentIds(tasks)
    ensures var i := SourceIndex(tasks, section, row);
            var r := DoneAction(tasks, section, row);
            var back := |WithState(r[..i], !SectionState(section))|;
            && back < RowsInSection(r, OtherSection(section))
            && TaskAt(r, OtherSection(section), back) == Toggle(TaskAt(tasks, section, row))
            && DoneAction(r, OtherSection(section), back) == tasks
  {
    var t := TaskAt(tasks, section, row);
    var i := SourceIndex(tasks, section, row);
    var d := SectionState(section);
    var r := DoneAction(tasks, section, row);
    FlippedRow(tasks, section, row);
    assert r == SetComplete(tasks, t.id, !d);
    forall j | 0 <= j < |tasks| && tasks[j].id == t.id ensures tasks[j].isComplete == d {
      assert tasks[j] == tasks[i];
    }
    SetCompleteRestores(tasks, t.id, d);
  }

  /** The headers agree with the rows: "CURRENT TASKS" stands exactly over
      incomplete tasks and "COMPLETED TASKS" exactly over complete ones. */
  lemma HeaderMatchesRows(tasks: seq<Task>, section: int, row: nat)
    requires row < RowsInSection(tasks, section)
    ensures HeaderTitle(section) == "CURRENT TASKS" <==> !TaskAt(tasks, section, row).isComplete
    ensures HeaderTitle(section) == "COMPLETED TASKS" <==> TaskAt(tasks, section, row).isComplete
  {
  }

  /** The done button reads "Done" exactly when pressing it marks the task
      complete, and "Undone" exactly when it marks the task incomplete. */
  lemma DoneTitleMatchesAction(tasks: seq<Task>, section: int, row: nat)
    requires row < RowsInSection(tasks, section)
    ensures DoneButtonTitle(section) == "Done"
            <==> DoneAction(tasks, section, row)[SourceIndex(tasks, section, row)].isComplete
    ensures DoneButtonTitle(section) == "Undone"
            <==> !DoneAction(tasks, section, row)[SourceIndex(tasks, section, row)].isComplete
  {
  }

  /** The store's edit of one task: every handle to it gets the new name and
      note. */
  function Rename(tasks: seq<Task>, id: nat, name: string, note: string): (r: seq<Task>)
    ensures |r| == |tasks|
  {
    seq(|tasks|, j requires 0 <= j < |tasks| =>
      if tasks[j].id == id then tasks[j].(name := name, note := note) else tasks[j])
  }

  /** `editTask`: nothing happens without a task; otherwise the task reads
      back with the new name and note, keeps its flag, and every other task
      is left alone. */
  function EditTask(tasks: seq<Task>, task: Option<Task>, name: string, note: string): (r: seq<Task>)
    ensures |r| == |tasks|
    ensures task.None? ==> r == tasks
    ensures forall j :: 0 <= j < |tasks| ==> r[j].id == tasks[j].id && r[j].isComplete == tasks[j].isComplete
    ensures task.Some? ==> forall j :: 0 <= j < |tasks| && tasks[j].id == task.value.id ==>
              r[j].name == name && r[j].note == note
    ensures task.Some? ==> forall j :: 0 <= j < |tasks| && tasks[j].id != task.value.id ==> r[j] == tasks[j]
  {
    match task
    case None => tasks
    case Some(t) => Rename(tasks, t.id, name, note)
  }

  /** Editing the task swiped at (`section`, `row`) keeps every section's
      rows, so reloading that same row shows the edited task. */
  lemma EditKeepsRow(tasks: seq<Task>, section: int, row: nat, name: string, note: string)
    requires row < RowsInSection(tasks, section)
    ensures var r := EditTask(tasks, Some(TaskAt(tasks, section, row)), name, note);
            && RowsInSection(r, 0) == RowsInSection(tasks, 0)
            && RowsInSection(r, 1) == RowsInSection(tasks, 1)
            && row < RowsInSection(r, section)
            && TaskAt(r, section, row) == TaskAt(tasks, section, row).(name := name, note := note)
  {
    var r := EditTask(tasks, Some(TaskAt(tasks, section, row)), name, note);
    SameFlagsSameCount(tasks, r, false);
    SameFlagsSameCount(tasks, r, true);
    NthIndexSameFlags(tasks, r, SectionState(section), row);
  }

  /** A task made by the add button: new tasks start incomplete. */
  function NewTask(id: nat, name: string, note: string): (t: Task)
    ensures !t.isComplete && t.id == id && t.name == name && t.note == note
  {
    Task(id, name, note, false)
  }

  /** `saveTask`: after the store has saved `task` (giving `stored`), the new
      row is where the task is among the current tasks, or row 0 when they do
      not hold it. */
  function SavedTaskRow(stored: seq<Task>, task: Task): (row: nat)
    ensures (exists j :: 0 <= j < |stored| && stored[j].id == task.id && !stored[j].isComplete) ==>
              row < RowsInSection(stored, 0) && TaskAt(stored, 0, row).id == task.id
    ensures (forall j :: 0 <= j < |stored| && !stored[j].isComplete ==> stored[j].id != task.id) ==> row == 0
  {
    WithStateMembers(stored, false);
    IndexOrZero(CurrentTasks(stored), (t: Task) => t.id == task.id)
  }

  /** If the store appends a fresh task to the list, the new row is the last
      row of section 0. */
  lemma SavedTaskAtEnd(tasks: seq<Task>, id: nat, name: string, note: string)
    requires forall j :: 0 <= j < |tasks| ==> tasks[j].id != id
    ensures SavedTaskRow(tasks + [NewTask(id, name, note)], NewTask(id, name, note)) == RowsInSection(tasks, 0)
  {
    var t := NewTask(id, name, note);
    WithStateAppend(tasks, [t], false);
    WithStateMembers(tasks, false);
    var cur := CurrentTasks(tasks + [t]);
    var n := |CurrentTasks(tasks)|;
    assert cur == CurrentTasks(tasks) + [t];
    assert cur[n].id == id;
    forall j | 0 <= j < n ensures cur[j].id != id {
      assert cur[j] == CurrentTasks(tasks)[j];
      assert cur[j] in tasks;
    }
    var row := IndexOrZero(cur, (u: Task) => u.id == id);
    assert row == n;
  }
}

=== FILE: summary.dfy ===
/** The detail text of a row in the screen of task lists (`getSecondText`):
    a check mark for a non-empty list whose tasks are all complete, and
    otherwise the number of tasks still open. */
module Summary {
  import opened Records
  import opened Filters
  import Decimal

  /** The check mark U+2713 shown for a finished list. */
  const DoneMarker: string := "\U{2713}"

  /** `tasks.reduce(true) { partial, task in !partial ? false : task.isComplete }`:
      a left fold that keeps `false` once it has seen it. */
  function ReduceDone(partial: bool, tasks: seq<Task>): bool
    decreases |tasks|
  {
    if |tasks| == 0 then partial
    else ReduceDone(if !partial then false else tasks[0].isComplete, tasks[1..])
  }

  ghost predicate AllComplete(tasks: seq<Task>) {
    forall i :: 0 <= i < |tasks| ==> tasks[i].isComplete
  }

  /** The fold is the universal quantifier, conjoined with its seed. */
  lemma {:induction false} ReduceDoneIsForall(partial: bool, tasks: seq<Task>)
    ensures ReduceDone(partial, tasks) <==> partial && AllComplete(tasks)
    decreases |tasks|
  {
    if |tasks| > 0 {
      ReduceDoneIsForall(if !partial then false else tasks[0].isComplete, tasks[1..]);
      assert AllComplete(tasks) <==> tasks[0].isComplete && AllComplete(tasks[1..]) by {
        if tasks[0].isComplete && AllComplete(tasks[1..]) {
          forall i | 0 <= i < |tasks| ensures tasks[i].isComplete {
            if i > 0 { assert tasks[i] == tasks[1..][i - 1]; }
          }
        }
      }
    }
  }

  /** No count is ever rendered as the check mark. */
  lemma RenderIsNotMarker(n: nat)
    ensures Decimal.Render(n) != DoneMarker
  {
  }

  /** The list's detail text. */
  function SecondText(list: TaskList): (r: string)
    ensures r == DoneMarker <==> |list.tasks| > 0 && AllComplete(list.tasks)
    ensures r != DoneMarker ==> r == Decimal.Render(|CurrentTasks(list.tasks)|)
    ensures r != DoneMarker ==> Decimal.IsDigits(r) && Decimal.Parse(r) == |CurrentTasks(list.tasks)|
    ensures |list.tasks| == 0 ==> r == "0"
  {
    var isActionsDone := ReduceDone(true, list.tasks);
    ReduceDoneIsForall(true, list.tasks);
    RenderIsNotMarker(|CurrentTasks(list.tasks)|);
    Decimal.ParseRender(|CurrentTasks(list.tasks)|);
    if isActionsDone && |list.tasks| != 0 then DoneMarker
    else Decimal.Render(|CurrentTasks(list.tasks)|)
  }

  /** When a non-empty list shows a number, that number is at least one and
      at most the number of its tasks. */
  lemma OpenCountBounds(list: TaskList)
    requires |list.tasks| > 0 && SecondText(list) != DoneMarker
    ensures 1 <= Decimal.Parse(SecondText(list)) <= |list.tasks|
  {
    var i :| 0 <= i < |list.tasks| && !list.tasks[i].isComplete;
    WithStateMembers(list.tasks, false);
    assert list.tasks[i] in CurrentTasks(list.tasks);
  }

  /** Once every task of a non-empty list is complete, the list shows the
      check mark. */
  lemma SummaryOfCompletedList(list: TaskList)
    requires |list.tasks| > 0
    requires forall t :: t in list.tasks ==> t.isComplete
    ensures SecondText(list) == DoneMarker
  {
  }
}
